=== FILE: README.md ===
# uTP window controller and peer-wire message registry, in Dafny

This project models two small sequential components of the JavaTorrent
BitTorrent client and proves properties of them.

1. **The uTP congestion-window controller** (`SocketWindowHandler`). This is the per-socket
   controller of the micro transport protocol. It keeps a window `maxWindow`, in bytes, which
   starts at 150. It also keeps a registry of sent packets that are not yet acknowledged,
   keyed by their 16-bit sequence number. The controller is delay-based, in the style of the
   uTP congestion control of BEP 29, which follows section 2.4.2 of RFC 6817 (LEDBAT).
   - Every received packet runs one control step:
     `gain = trunc(50 * offTarget / 100ms * bytesInFlight / maxWindow)` and
     `maxWindow = max(0, maxWindow + gain)`.
   - The step then removes the entry keyed by the packet's acknowledge number.
   - A timeout resets the window to 150. A packet loss halves it.
2. **The peer-wire message registry** (`MessageFactory` and its `Builder`). This is a map
   from message id to the kind of message that id creates.
   - A new builder registers the nine core messages of BEP 3.
   - Registering an id that is already taken fails.
   - The built factory refuses ids that nobody registered.

Files and modules:

- `java_int.dfy` (`JavaInt`): Java `int` semantics on unbounded integers. It covers
  wrap-around addition, the saturating cast of a double to `int`, division that truncates
  toward zero, and `Math.max`.
- `in_flight.dfy` (`InFlight`): the packet record, the in-flight registry and its byte
  total.
  - The byte total is computed by scanning the 16-bit sequence-number space.
  - It is proved equal to an order-free sum of the map's values.
- `window_handler.dfy` (`WindowHandler`): the control law and the handler's operations, as
  pure state-transition functions.
- `window_events.dfy` (`WindowEvents`): runs of events (send, receive, timeout, loss) and
  the properties that hold over such runs.
- `message_factory.dfy` (`MessageFactory`): the builder, its registrations and the
  factory.

Modelling choices:

- **Integer gain.** `SocketWindowHandler` computes the gain with doubles. Here it is the exact
  integer `50 * offTargetMicros * bytesInFlight` divided by `100000 * maxWindow`. The
  division truncates toward zero, as Java's cast to `int` does, and the result saturates at
  the ends of the `int` range.
- **Int overflow.** The addition `maxWindow + scaledGain` and the sum in
  `getBytesInFlight` wrap around at 32 bits, as Java's `int` does.
- **Packet.** A packet is the record `{seqNr, ackNr, timestampDifference, size}`.
  - Sequence numbers are 16-bit values read as unsigned, 0 to 65535.
  - `SocketWindowHandler` keys its map by a Java `short`, and reading those 16 bits as unsigned is a
    one-to-one renaming.
  - The model assumes that `getAcknowledgeNumber()` has the same `short` type as the map's
    keys, so that `remove` at line 60 can find an entry.
- **Minimum delay.** `SlidingTimedValue.getMinimum()` becomes the input `minDelay`. This is
  the minimum the tracker reports once the packet's delay has been added.
  - No property depends on how it was computed.
  - Only the growth bounds assume `minDelay <= measuredDelay`. A tracker whose minimum
    includes the latest sample guarantees this.
- **The code as written.** The model follows this revision of the controller, which
  differs from other descriptions of the LEDBAT-style window:
  - the gain constant is 50;
  - the window factor is `bytesInFlight / maxWindow`, not a ratio of acknowledged bytes to
    the window;
  - there is no step that skips zero delays;
  - the gain uses the bytes in flight before the acknowledged packet is removed;
  - `MAX_WINDOW_CHANGE_PER_PACKET` bounds increases only. The delay factor has no lower
    bound, so one packet far over the target can shrink the window by many times the
    constant (`OverTargetDecreaseIsNotCapped`).
- **Overflow collapse.** Because the model keeps Java's wrap-around, a window just below
  the top of the `int` range that should grow wraps to a negative sum. `Math.max(0, …)`
  then turns that sum into an empty window (`OverflowCollapsesWindow`).
- **Message ids.** Ids are the BEP 3 values: choke 0, unchoke 1, interested 2,
  not interested 3, have 4, bitfield 5, request 6, piece 7, cancel 8. A piece id creates a
  `Block` message, JavaTorrent's `MessageBlock`.

## Model

| member | source | states |
|---|---|---|
| JavaInt.Wrap | bittorrent-utp/src/main/java/org/johnnei/javatorrent/internal/utp/SocketWindowHandler.java:48 | Java's `int` addition yields the one `int` congruent to the true sum modulo 2^32, and the true sum when that fits |
| JavaInt.Saturate | bittorrent-utp/src/main/java/org/johnnei/javatorrent/internal/utp/SocketWindowHandler.java:46 | the cast to `int` keeps values in range and clamps the rest to `Integer.MAX_VALUE` / `MIN_VALUE` |
| JavaInt.Max | bittorrent-utp/src/main/java/org/johnnei/javatorrent/internal/utp/SocketWindowHandler.java:48 | `Math.max` returns one of its arguments and is at least both |
| JavaInt.TruncDiv | bittorrent-utp/src/main/java/org/johnnei/javatorrent/internal/utp/SocketWindowHandler.java:46 | rounding toward zero: `abs(q)*b <= abs(a) < (abs(q)+1)*b`, and the quotient has the numerator's sign |
| InFlight.TotalSizeIsSizeOfValues | bittorrent-utp/src/main/java/org/johnnei/javatorrent/internal/utp/SocketWindowHandler.java:69-76 | the ordered scan of the registry equals the sum of the sizes of its values, taken in any order |
| InFlight.SumFromRemove | bittorrent-utp/src/main/java/org/johnnei/javatorrent/internal/utp/SocketWindowHandler.java:60 | removing a key lowers the byte total by that packet's size if it was tracked, and otherwise changes nothing |
| InFlight.SumFromInsert | bittorrent-utp/src/main/java/org/johnnei/javatorrent/internal/utp/SocketWindowHandler.java:65 | adding a fresh key raises the byte total by the new packet's size |
| InFlight.PutIfAbsent | bittorrent-utp/src/main/java/org/johnnei/javatorrent/internal/utp/SocketWindowHandler.java:65 | the packet ends up tracked under its sequence number; an existing entry is kept, not overwritten; no other entry changes; the byte total grows by its size only if the number was absent |
| InFlight.Remove | bittorrent-utp/src/main/java/org/johnnei/javatorrent/internal/utp/SocketWindowHandler.java:60 | exactly the entry for the given number leaves (if present); all others stay with their packets; the byte total drops by the removed packet's size |
| WindowHandler.OffTarget | bittorrent-utp/src/main/java/org/johnnei/javatorrent/internal/utp/SocketWindowHandler.java:43 | `offTarget` is non-negative exactly when the queuing delay is at most the 100 ms target, and at most the target when the queuing delay is not negative |
| WindowHandler.ScaledGain | bittorrent-utp/src/main/java/org/johnnei/javatorrent/internal/utp/SocketWindowHandler.java:42-46 | the gain is an `int`; it is zero for a zero window; it has the sign of `offTarget` when bytes in flight are not negative |
| WindowHandler.GainBoundedByMaxChange | bittorrent-utp/src/main/java/org/johnnei/javatorrent/internal/utp/SocketWindowHandler.java:24-46 | with non-negative bytes in flight and `ourDelay >= 0`, the gain is at most `50 * bytesInFlight / maxWindow`, so at most 50 bytes while bytes in flight do not exceed the window |
| WindowHandler.NextMaxWindow | bittorrent-utp/src/main/java/org/johnnei/javatorrent/internal/utp/SocketWindowHandler.java:39-48 | whatever the delay sample, the new window is a non-negative `int`; zero stays zero; with non-negative bytes in flight, at or above target it never grows and at or below target it never shrinks unless the addition overflows |
| WindowHandler.UnderTargetGrowthIsBounded | bittorrent-utp/src/main/java/org/johnnei/javatorrent/internal/utp/SocketWindowHandler.java:42-48 | with `minDelay <= measuredDelay <= minDelay + 100 ms`, non-negative bytes in flight at most the window and room below `int` max, one step grows the window by between 0 and 50 bytes |
| WindowHandler.OverflowCollapsesWindow | bittorrent-utp/src/main/java/org/johnnei/javatorrent/internal/utp/SocketWindowHandler.java:48 | a window of `MAX_VALUE - 10` with a full window in flight and zero queuing delay wraps and becomes 0 |
| WindowHandler.OverTargetDecreaseIsNotCapped | bittorrent-utp/src/main/java/org/johnnei/javatorrent/internal/utp/SocketWindowHandler.java:24-48 | the per-packet cap bounds growth only: window 1000 with 1000 bytes in flight and 1.1 s of queuing delay drops to 500, ten times the cap |
| WindowHandler.BytesInFlight | bittorrent-utp/src/main/java/org/johnnei/javatorrent/internal/utp/SocketWindowHandler.java:69-76 | `getBytesInFlight` is an `int` congruent modulo 2^32 to the sum of the tracked packets' sizes, and equal to that sum (so non-negative) whenever it fits in an `int` |
| WindowHandler.NewHandler | bittorrent-utp/src/main/java/org/johnnei/javatorrent/internal/utp/SocketWindowHandler.java:32-36 | a fresh handler has window 150, an empty registry and zero bytes in flight |
| WindowHandler.OnReceivedPacket | bittorrent-utp/src/main/java/org/johnnei/javatorrent/internal/utp/SocketWindowHandler.java:38-61 | exactly the entry keyed by the acknowledge number leaves, and the byte total drops by that packet's size; a zero window stays zero; with non-negative bytes in flight, at or above the target delay the window never grows, and at or below it the window never shrinks unless `maxWindow + gain` overflows; if also bytes in flight are at most the window, the window is at most `MAX_VALUE - 50` and `minDelay <= measuredDelay`, it grows by 0 to 50 bytes |
| WindowHandler.ReceivedStepUsesBytesBeforeRemoval | bittorrent-utp/src/main/java/org/johnnei/javatorrent/internal/utp/SocketWindowHandler.java:45-60 | the step counts the acknowledged packet's bytes: window 100 with one 100-byte packet in flight, acknowledged at zero queuing delay, becomes 150 and the registry empty, where counting after the removal would leave 100 |
| WindowHandler.OnSentPacket | bittorrent-utp/src/main/java/org/johnnei/javatorrent/internal/utp/SocketWindowHandler.java:63-67 | the packet is inserted only if its sequence number is absent, otherwise the registry is unchanged; the window is unchanged; the byte total grows accordingly |
| WindowHandler.OnTimeout | bittorrent-utp/src/main/java/org/johnnei/javatorrent/internal/utp/SocketWindowHandler.java:83-85 | the window becomes 150 whatever it was; the registry is unchanged |
| WindowHandler.OnPacketLoss | bittorrent-utp/src/main/java/org/johnnei/javatorrent/internal/utp/SocketWindowHandler.java:87-89 | the new window is the old one halved and rounded down (`2r <= old <= 2r + 1`); the registry is unchanged |
| WindowEvents.Run | bittorrent-utp/src/main/java/org/johnnei/javatorrent/internal/utp/SocketWindowHandler.java:38-89 | after any sequence of calls the window is an `int` in `[0, MAX_VALUE]` and every packet is stored under its own sequence number |
| WindowEvents.EmptyWindowNeedsTimeout | bittorrent-utp/src/main/java/org/johnnei/javatorrent/internal/utp/SocketWindowHandler.java:45-89 | from a zero window, any run without a timeout (sends, acknowledgements, losses) ends with the window still zero |
| WindowEvents.TimeoutReopensWindow | bittorrent-utp/src/main/java/org/johnnei/javatorrent/internal/utp/SocketWindowHandler.java:83-85 | any run followed by a timeout ends with window 150 |
| WindowEvents.OverTargetNeverGrows | bittorrent-utp/src/main/java/org/johnnei/javatorrent/internal/utp/SocketWindowHandler.java:38-61 | a run of acknowledgements whose queuing delay is at or above the target never grows the window or the byte total |
| WindowEvents.AckLeavesOtherPacketInFlight | bittorrent-utp/src/main/java/org/johnnei/javatorrent/internal/utp/SocketWindowHandler.java:60-76 | after sending two packets and acknowledging the first, exactly the second is in flight and the bytes in flight are its size |
| WindowEvents.SendTwoAckFirstExample | bittorrent-utp/src/main/java/org/johnnei/javatorrent/internal/utp/SocketWindowHandler.java:60-76 | sending 100 and 200 bytes and acknowledging the first leaves 200 bytes in flight |
| MessageFactory.RegisterMessage | bittorrent/src/main/java/org/johnnei/javatorrent/torrent/protocol/MessageFactory.java:62-69 | succeeds exactly when the id is free; a taken id is refused with the id-taken error, leaving the builder as it was; a free id adds exactly that mapping and keeps every other one |
| MessageFactory.RegisterAll | bittorrent/src/main/java/org/johnnei/javatorrent/torrent/protocol/MessageFactory.java:51-59 | a run of `registerMessage` calls, stopping at the first failure, succeeds exactly when its ids are distinct and none was taken, and then adds exactly those mappings |
| MessageFactory.DefaultRegistrationsAreDistinct | bittorrent/src/main/java/org/johnnei/javatorrent/torrent/protocol/MessageFactory.java:51-59 | the constructor's nine registrations never reuse an id |
| MessageFactory.DefaultRegistrationsDescribeCoreMessages | bittorrent/src/main/java/org/johnnei/javatorrent/torrent/protocol/MessageFactory.java:51-59 | the constructor's registrations map each BEP 3 id to its message kind, with piece mapped to block |
| MessageFactory.NewBuilder | bittorrent/src/main/java/org/johnnei/javatorrent/torrent/protocol/MessageFactory.java:47-59 | constructing a builder does not fail, and exactly the nine core messages are registered |
| MessageFactory.Build | bittorrent/src/main/java/org/johnnei/javatorrent/torrent/protocol/MessageFactory.java:71-73 | the built factory creates a message for exactly the builder's registered ids, of the kind registered for each |
| MessageFactory.CreateById | bittorrent/src/main/java/org/johnnei/javatorrent/torrent/protocol/MessageFactory.java:35-41 | an unknown id fails with the unknown-message error; a known id yields the kind registered for it |
| MessageFactory.RegisteredRunCreatesEachKind | bittorrent/src/main/java/org/johnnei/javatorrent/torrent/protocol/MessageFactory.java:51-73 | after a successful run of registrations, the built factory creates for each registration's id exactly the kind that registration supplied |
| MessageFactory.RegisterThenCreate | bittorrent/src/main/java/org/johnnei/javatorrent/torrent/protocol/MessageFactory.java:62-69 | a kind registered under a free id is what the built factory creates for that id; a taken id is refused |
| MessageFactory.DefaultFactoryById | bittorrent/src/main/java/org/johnnei/javatorrent/torrent/protocol/MessageFactory.java:47-59 | the default factory accepts exactly ids 0..8, creates a block for id 7 and refuses id 20 |

## Left out

- Logging in `onReceivedPacket`: it is a side effect only.
- `synchronized` blocks and thread interleaving: the handler is modelled sequentially, one
  call at a time.
- `getMaxWindow`: it is a field read. The model exposes the field `maxWindow` directly.
- Double-precision rounding: the gain is computed exactly and then truncated. Where the
  double product lands within rounding error of an integer, `SocketWindowHandler`'s result may differ
  by one from the model's.
- `SlidingTimedValue`, the time-bucketed minimum of delay samples: it is clock-driven and
  not part of this model. Its result is the input `minDelay`.
- `UtpPacket` and header serialisation: they are not part of this model. Only the four
  fields the handler reads are kept.
- Message objects and their suppliers: the classes are not part of this model. A supplier
  becomes the `MessageKind` it creates, and `createById` returns that kind rather than a
  fresh instance.
- The factory shares the builder's map object (`MessageFactory.java` line 27), so
  registering on the builder after `build()` also changes the factory. The model has value
  semantics and does not model this aliasing.
- Exceptions: they become `Err` results. Because values are immutable, a refused
  registration leaves the caller's builder unchanged. The model's builder value stands in
  for `return this`.
- WindowHandler.OnReceivedPacket: like `NextMaxWindow`, its "never grows over target" and
  "never shrinks within target" clauses assume non-negative bytes in flight, and the latter
  also no 32-bit overflow in `maxWindow + scaledGain`. If the byte sum wraps negative, the
  sign of the gain flips.
- WindowHandler.NextMaxWindow: both monotonicity clauses assume non-negative bytes in flight;
  a negative (wrapped) byte count flips the sign of the gain. The "never shrinks within
  target" clause also assumes no 32-bit overflow in `maxWindow + scaledGain` (`GainFits`). With overflow, Java's `int` addition wraps and the
  window drops to 0 (see `OverflowCollapsesWindow`).
- WindowEvents.OverTargetNeverGrows: it assumes that the bytes in flight fit in an `int` at
  the start. If the sum wraps negative, the sign of the gain flips.

=== FILE: in_flight.dfy ===
/**
 The registry of uTP packets that were sent and not yet acknowledged, keyed by
 their 16-bit sequence number, and the number of bytes they occupy.
 */
module InFlight {

  const SeqSpace: int := 0x1_0000

  /** A 16-bit sequence or acknowledge number. `SocketWindowHandler` keys its map by a
      Java `short`; reading the same 16 bits as unsigned is a bijection. */
  newtype SeqNr = x: int | 0 <= x < 0x1_0000

  /** The parts of a uTP packet the window handler reads: its header's
      sequence number, acknowledge number and timestamp difference (the
      one-way delay the peer measured, in microseconds), and its size in bytes. */
  datatype Packet = Packet(seqNr: SeqNr, ackNr: SeqNr, timestampDifference: int, size: nat)

  type Registry = map<SeqNr, Packet>

  /** Every packet is stored under its own sequence number. */
  predicate WellKeyed(m: Registry) {
    forall s :: s in m ==> m[s].seqNr == s
  }

  /** Sum of the sizes of the tracked packets whose sequence number is at
      least `from`, scanning the sequence-number space in order. */
  function SumFrom(m: Registry, from: int): nat
    requires 0 <= from <= SeqSpace
    decreases SeqSpace - from
  {
    if from == SeqSpace then 0
    else (if from as SeqNr in m then m[from as SeqNr].size else 0) + SumFrom(m, from + 1)
  }

  /** Total size in bytes of the tracked packets. */
  function TotalSize(m: Registry): nat {
    SumFrom(m, 0)
  }

  /** Independent reference: the sum of the sizes of the map's values, taken
      in whatever order the choice of keys happens to give. */
  ghost function SizeOfValues(m: Registry): nat
    decreases |m|
  {
    if m == map[] then 0
    else
      var s :| s in m;
      m[s].size + SizeOfValues(m - {s})
  }

  lemma {:induction false} SumFromEmpty(from: int)
    requires 0 <= from <= SeqSpace
    ensures SumFrom(map[], from) == 0
    decreases SeqSpace - from
  {
    if from < SeqSpace {
      SumFromEmpty(from + 1);
    }
  }

  /** Removing key `s` lowers the scan by that packet's size, if it was
      tracked and lies in the scanned range, and otherwise changes nothing. */
  lemma {:induction false} SumFromRemove(m: Registry, s: SeqNr, from: int)
    requires 0 <= from <= SeqSpace
    ensures SumFrom(m - {s}, from)
            == SumFrom(m, from) - (if s in m && from <= s as int then m[s].size else 0)
    decreases SeqSpace - from
  {
    if from < SeqSpace {
      SumFromRemove(m, s, from + 1);
    }
  }

  /** Adding a fresh key `s` raises the scan by the new packet's size, if it
      lies in the scanned range. */
  lemma {:induction false} SumFromInsert(m: Registry, s: SeqNr, p: Packet, from: int)
    requires s !in m
    requires 0 <= from <= SeqSpace
    ensures SumFrom(m[s := p], from) == SumFrom(m, from) + (if from <= s as int then p.size else 0)
    decreases SeqSpace - from
  {
    if from < SeqSpace {
      SumFromInsert(m, s, p, from + 1);
    }
  }

  /** The ordered scan and the order-free sum of values agree. */
  lemma {:induction false} TotalSizeIsSizeOfValues(m: Registry)
    ensures TotalSize(m) == SizeOfValues(m)
    decreases |m|
  {
    if m == map[] {
      SumFromEmpty(0);
    } else {
      assert exists s :: s in m && SizeOfValues(m) == m[s].size + SizeOfValues(m - {s});
      var s :| s in m && SizeOfValues(m) == m[s].size + SizeOfValues(m - {s});
      TotalSizeIsSizeOfValues(m - {s});
      SumFromRemove(m, s, 0);
    }
  }

  /** `putIfAbsent`: track `p` under its sequence number unless that number is
      already tracked, in which case the existing entry is kept. */
  function PutIfAbsent(m: Registry, p: Packet): (r: Registry)
    requires WellKeyed(m)
    ensures WellKeyed(r)
    ensures p.seqNr in r
    ensures forall s :: s in m ==> s in r && r[s] == m[s]
    ensures forall s :: s in r && s != p.seqNr ==> s in m
    ensures p.seqNr !in m ==> r[p.seqNr] == p
    ensures TotalSize(r) == TotalSize(m) + (if p.seqNr in m then 0 else p.size)
  {
    if p.seqNr in m then m
    else
      SumFromInsert(m, p.seqNr, p, 0);
      m[p.seqNr := p]
  }

  /** `remove`: stop tracking the packet with sequence number `s`, if any. */
  function Remove(m: Registry, s: SeqNr): (r: Registry)
    requires WellKeyed(m)
    ensures WellKeyed(r)
    ensures s !in r
    ensures forall t :: t in r <==> t in m && t != s
    ensures forall t :: t in r ==> r[t] == m[t]
    ensures TotalSize(r) == TotalSize(m) - (if s in m then m[s].size else 0)
  {
    SumFromRemove(m, s, 0);
    m - {s}
  }
}

=== FILE: java_int.dfy ===
/**
 Java's 32-bit `int` arithmetic, written out over Dafny's unbounded integers:
 wrap-around addition, the saturating narrowing of a (finite) double to an
 int, truncating division and `Math.max`.
 */
module JavaInt {

  const MinInt: int := -0x8000_0000
  const MaxInt: int := 0x7fff_ffff
  const Modulus: int := 0x1_0000_0000

  predicate IsInt(x: int) {
    MinInt <= x <= MaxInt
  }

  function Abs(x: int): nat {
    if x < 0 then -x else x
  }

  /** Java's `Math.max` on ints. */
  function Max(a: int, b: int): (r: int)
    ensures r >= a && r >= b
    ensures r == a || r == b
  {
    if a >= b then a else b
  }

  /** The two's-complement int that a mathematical integer wraps to: the unique
      int congruent to `x` modulo 2^32. This is what Java's `+` yields. */
  function Wrap(x: int): (r: int)
    ensures IsInt(r)
    ensures (x - r) % Modulus == 0
    ensures IsInt(x) ==> r == x
  {
    var m := (x - MinInt) % Modulus;
    assert x - (m + MinInt) == Modulus * ((x - MinInt) / Modulus);
    m + MinInt
  }

  /** Java's narrowing of a finite double to int: rounds toward zero (done by
      the caller) and saturates at the ends of the int range. */
  function Saturate(x: int): (r: int)
    ensures IsInt(r)
    ensures IsInt(x) ==> r == x
    ensures x > MaxInt ==> r == MaxInt
    ensures x < MinInt ==> r == MinInt
  {
    if x > MaxInt then MaxInt else if x < MinInt then MinInt else x
  }

  /** Division rounding toward zero, as Java's int division and its double to
      int cast do; Dafny's own `/` rounds down for a negative numerator. */
  function TruncDiv(a: int, b: int): (q: int)
    requires b > 0
    ensures Abs(q) * b <= Abs(a) < (Abs(q) + 1) * b
    ensures a >= 0 ==> q >= 0
    ensures a <= 0 ==> q <= 0
  {
    if a >= 0 then a / b else -((-a) / b)
  }
}

=== FILE: message_factory.dfy ===
/**
 The peer-wire message registry: a builder collects message ids and the kind
 of message each id creates; the factory it builds creates a message by id.
 */
module MessageFactory {

  /** The kind of message an id creates. The nine core peer messages of
      BEP 3; `Custom` stands for any other supplier a caller registers. */
  datatype MessageKind =
    | Choke
    | Unchoke
    | Interested
    | Uninterested
    | Have
    | Bitfield
    | Request
    | Block
    | Cancel
    | Custom(name: string)

  /** The failures `MessageFactory` reports by throwing. */
  datatype Error =
    | UnknownMessage(id: int)   // IllegalArgumentException from createById
    | IdTaken(id: int)          // IllegalStateException from registerMessage

  datatype Result<T> = Ok(value: T) | Err(error: Error)

  /** The message ids of BEP 3. */
  const MessageChoke: int := 0
  const MessageUnchoke: int := 1
  const MessageInterested: int := 2
  const MessageUninterested: int := 3
  const MessageHave: int := 4
  const MessageBitfield: int := 5
  const MessageRequest: int := 6
  const MessagePiece: int := 7
  const MessageCancel: int := 8

  datatype Builder = Builder(suppliers: map<int, MessageKind>)

  datatype Factory = Factory(suppliers: map<int, MessageKind>)

  /** `registerMessage`: fails when the id is taken, and then the builder is
      left as it was; otherwise adds exactly the one mapping. */
  function RegisterMessage(b: Builder, id: int, kind: MessageKind): (r: Result<Builder>)
    ensures r.Ok? <==> id !in b.suppliers
    ensures r.Err? ==> r.error == IdTaken(id)
    ensures r.Ok? ==> r.value.suppliers.Keys == b.suppliers.Keys + {id}
    ensures r.Ok? ==> r.value.suppliers[id] == kind
    ensures r.Ok? ==> forall other :: other in b.suppliers ==> r.value.suppliers[other] == b.suppliers[other]
  {
    if id in b.suppliers then Err(IdTaken(id))
    else Ok(Builder(b.suppliers[id := kind]))
  }

  /** The ids of a list of registrations. */
  function Ids(regs: seq<(int, MessageKind)>): set<int>
    decreases |regs|
  {
    if regs == [] then {} else {regs[0].0} + Ids(regs[1..])
  }

  /** No id occurs twice in the list. */
  predicate DistinctIds(regs: seq<(int, MessageKind)>)
    decreases |regs|
  {
    regs == [] || (regs[0].0 !in Ids(regs[1..]) && DistinctIds(regs[1..]))
  }

  /** The map a list of registrations with distinct ids describes. */
  function AsMap(regs: seq<(int, MessageKind)>): map<int, MessageKind>
    decreases |regs|
  {
    if regs == [] then map[] else AsMap(regs[1..])[regs[0].0 := regs[0].1]
  }

  lemma {:induction false} AsMapKeys(regs: seq<(int, MessageKind)>)
    ensures AsMap(regs).Keys == Ids(regs)
    decreases |regs|
  {
    if regs != [] {
      AsMapKeys(regs[1..]);
    }
  }

  /** Calls `registerMessage` for each registration in order, stopping at the
      first failure. The run succeeds exactly when its ids are distinct and
      none is taken yet, and then adds exactly those mappings. */
  function RegisterAll(b: Builder, regs: seq<(int, MessageKind)>): (r: Result<Builder>)
    ensures r.Ok? <==> DistinctIds(regs) && Ids(regs) !! b.suppliers.Keys
    ensures r.Ok? ==> r.value.suppliers == b.suppliers + AsMap(regs)
    decreases |regs|
  {
    if regs == [] then Ok(b)
    else
      match RegisterMessage(b, regs[0].0, regs[0].1)
      case Err(e) => Err(e)
      case Ok(b') =>
        AsMapKeys(regs[1..]);
        RegisterAll(b', regs[1..])
  }

  /** The registrations the builder's constructor makes, in its order. */
  const DefaultRegistrations: seq<(int, MessageKind)> := [
    (MessageBitfield, Bitfield),
    (MessageCancel, Cancel),
    (MessageChoke, Choke),
    (MessageHave, Have),
    (MessageInterested, Interested),
    (MessagePiece, Block),
    (MessageRequest, Request),
    (MessageUnchoke, Unchoke),
    (MessageUninterested, Uninterested)
  ]

  /** The nine core messages by id; a piece message is read as a block. */
  const CoreMessages: map<int, MessageKind> := map[
    MessageChoke := Choke,
    MessageUnchoke := Unchoke,
    MessageInterested := Interested,
    MessageUninterested := Uninterested,
    MessageHave := Have,
    MessageBitfield := Bitfield,
    MessageRequest := Request,
    MessagePiece := Block,
    MessageCancel := Cancel
  ]

  /** The constructor's registrations never reuse an id. */
  lemma DefaultRegistrationsAreDistinct()
    ensures DistinctIds(DefaultRegistrations)
  {
    var regs := DefaultRegistrations;
    assert regs[8..][1..] == regs[9..];
    assert Ids(regs[8..]) == {3};
    assert DistinctIds(regs[8..]);
    assert regs[7..][1..] == regs[8..];
    assert Ids(regs[7..]) == {1, 3};
    assert DistinctIds(regs[7..]);
    assert regs[6..][1..] == regs[7..];
    assert Ids(regs[6..]) == {6, 1, 3};
    assert DistinctIds(regs[6..]);
    assert regs[5..][1..] == regs[6..];
    assert Ids(regs[5..]) == {7, 6, 1, 3};
    assert DistinctIds(regs[5..]);
    assert regs[4..][1..] == regs[5..];
    assert Ids(regs[4..]) == {2, 7, 6, 1, 3};
    assert DistinctIds(regs[4..]);
    assert regs[3..][1..] == regs[4..];
    assert Ids(regs[3..]) == {4, 2, 7, 6, 1, 3};
    assert DistinctIds(regs[3..]);
    assert regs[2..][1..] == regs[3..];
    assert Ids(regs[2..]) == {0, 4, 2, 7, 6, 1, 3};
    assert DistinctIds(regs[2..]);
    assert regs[1..][1..] == regs[2..];
    assert Ids(regs[1..]) == {8, 0, 4, 2, 7, 6, 1, 3};
    assert DistinctIds(regs[1..]);
    assert regs[0..][1..] == regs[1..];
    assert Ids(regs[0..]) == {5, 8, 0, 4, 2, 7, 6, 1, 3};
    assert DistinctIds(regs[0..]);
    assert regs[0..] == regs;
  }

  /** The constructor's registrations describe exactly the nine core
      messages. */
  lemma DefaultRegistrationsDescribeCoreMessages()
    ensures AsMap(DefaultRegistrations) == CoreMessages
  {
    var regs := DefaultRegistrations;
    assert regs[9..] == [];
    assert regs[8..][1..] == regs[9..];
    assert AsMap(regs[8..]) == map[3 := Uninterested];
    assert regs[7..][1..] == regs[8..];
    assert AsMap(regs[7..]) == map[3 := Uninterested, 1 := Unchoke];
    assert regs[6..][1..] == regs[7..];
    assert AsMap(regs[6..]) == map[3 := Uninterested, 1 := Unchoke, 6 := Request];
    assert regs[5..][1..] == regs[6..];
    assert AsMap(regs[5..]) == map[3 := Uninterested, 1 := Unchoke, 6 := Request, 7 := Block];
    assert regs[4..][1..] == regs[5..];
    assert AsMap(regs[4..]) == map[3 := Uninterested, 1 := Unchoke, 6 := Request, 7 := Block, 2 := Interested];
    assert regs[3..][1..] == regs[4..];
    assert AsMap(regs[3..]) == map[3 := Uninterested, 1 := Unchoke, 6 := Request, 7 := Block, 2 := Interested, 4 := Have];
    assert regs[2..][1..] == regs[3..];
    assert AsMap(regs[2..]) == map[3 := Uninterested, 1 := Unchoke, 6 := Request, 7 := Block, 2 := Interested, 4 := Have, 0 := Choke];
    assert regs[1..][1..] == regs[2..];
    assert AsMap(regs[1..]) == map[3 := Uninterested, 1 := Unchoke, 6 := Request, 7 := Block, 2 := Interested, 4 := Have, 0 := Choke, 8 := Cancel];
    assert regs[0..][1..] == regs[1..];
    assert AsMap(regs[0..]) == map[3 := Uninterested, 1 := Unchoke, 6 := Request, 7 := Block, 2 := Interested, 4 := Have, 0 := Choke, 8 := Cancel, 5 := Bitfield];
    assert regs[0..] == regs;
  }

  /** `new Builder()`: the nine registrations never collide, so construction
      succeeds with exactly the core messages registered. */
  function NewBuilder(): (r: Result<Builder>)
    ensures r.Ok?
    ensures r.value.suppliers == CoreMessages
  {
    DefaultRegistrationsAreDistinct();
    DefaultRegistrationsDescribeCoreMessages();
    assert map[] + CoreMessages == CoreMessages;
    RegisterAll(Builder(map[]), DefaultRegistrations)
  }

  /** `build`: a factory that creates a message for exactly the ids the
      builder registered, of the kind registered for each. */
  function Build(b: Builder): (f: Factory)
    ensures forall id :: CreateById(f, id).Ok? <==> id in b.suppliers
    ensures forall id :: id in b.suppliers ==> CreateById(f, id) == Ok(b.suppliers[id])
  {
    Factory(b.suppliers)
  }

  /** `createById`: the kind registered for the id, or a failure for an id
      nobody registered. */
  function CreateById(f: Factory, id: int): (r: Result<MessageKind>)
    ensures r.Ok? <==> id in f.suppliers
    ensures r.Ok? ==> r.value == f.suppliers[id]
    ensures r.Err? ==> r.error == UnknownMessage(id)
  {
    if id !in f.suppliers then Err(UnknownMessage(id))
    else Ok(f.suppliers[id])
  }

  /** In a list with distinct ids, each registration is what the list's map
      holds for its id. */
  lemma {:induction false} AsMapLookup(regs: seq<(int, MessageKind)>, i: int)
    requires DistinctIds(regs) && 0 <= i < |regs|
    ensures regs[i].0 in AsMap(regs) && AsMap(regs)[regs[i].0] == regs[i].1
    decreases |regs|
  {
    if i > 0 {
      assert regs[1..][i - 1] == regs[i];
      AsMapLookup(regs[1..], i - 1);
      AsMapKeys(regs[1..]);
      assert regs[i].0 != regs[0].0;
    }
  }

  /** After a run of registrations succeeds, the built factory creates, for
      every registration in the run, the kind it registered: no later call in
      the run overwrote an earlier one. */
  lemma RegisteredRunCreatesEachKind(b: Builder, regs: seq<(int, MessageKind)>, i: int)
    requires RegisterAll(b, regs).Ok? && 0 <= i < |regs|
    ensures CreateById(Build(RegisterAll(b, regs).value), regs[i].0) == Ok(regs[i].1)
  {
    AsMapLookup(regs, i);
  }

  /** A message registered on a builder is what the built factory creates for
      its id; an id taken before is refused instead. */
  lemma RegisterThenCreate(b: Builder, id: int, kind: MessageKind)
    ensures id !in b.suppliers ==> CreateById(Build(RegisterMessage(b, id, kind).value), id) == Ok(kind)
    ensures id in b.suppliers ==> RegisterMessage(b, id, kind) == Err(IdTaken(id))
  {
  }

  /** The default factory creates a block for a piece message (id 7) and
      refuses ids past the core range, such as 20 (the extension id of BEP 10). */
  lemma DefaultFactoryById(id: int)
    ensures CreateById(Build(NewBuilder().value), id).Ok? <==> 0 <= id <= 8
    ensures CreateById(Build(NewBuilder().value), MessagePiece) == Ok(Block)
    ensures CreateById(Build(NewBuilder().value), 20) == Err(UnknownMessage(20))
  {
  }
}

=== FILE: window_events.dfy ===
/**
 Runs of socket events against one window handler: what holds after any
 interleaving of sends, acknowledgements, timeouts and losses.
 */
module WindowEvents {
  import opened JavaInt
  import opened InFlight
  import opened WindowHandler

  /** One call into the handler. `Received` carries the minimum delay the
      tracker reports for that packet. */
  datatype Event =
    | Sent(packet: Packet)
    | Received(packet: Packet, minDelay: int)
    | Timeout
    | PacketLoss

  function Apply(h: Handler, e: Event): (r: Handler)
    requires Valid(h)
    ensures Valid(r)
  {
    match e
    case Sent(p) => OnSentPacket(h, p)
    case Received(p, minDelay) => OnReceivedPacket(h, p, minDelay)
    case Timeout => OnTimeout(h)
    case PacketLoss => OnPacketLoss(h)
  }

  /** The handler after the events in order; the window stays a non-negative
      int and every packet stays under its own sequence number throughout. */
  function Run(h: Handler, es: seq<Event>): (r: Handler)
    requires Valid(h)
    ensures Valid(r)
    decreases |es|
  {
    if es == [] then h else Run(Apply(h, es[0]), es[1..])
  }

  /** An empty window is stuck: no send, acknowledgement or loss reopens it;
      only a timeout does. */
  lemma {:induction false} EmptyWindowNeedsTimeout(h: Handler, es: seq<Event>)
    requires Valid(h) && h.maxWindow == 0
    requires forall i :: 0 <= i < |es| ==> !es[i].Timeout?
    ensures Run(h, es).maxWindow == 0
    decreases |es|
  {
    if es != [] {
      EmptyWindowNeedsTimeout(Apply(h, es[0]), es[1..]);
    }
  }

  /** A timeout reopens any window, the empty one included. */
  lemma TimeoutReopensWindow(h: Handler, es: seq<Event>)
    requires Valid(h)
    ensures Run(h, es + [Timeout]).maxWindow == InitialMaxWindow
  {
    RunAppend(h, es, [Timeout]);
  }

  lemma {:induction false} RunAppend(h: Handler, es: seq<Event>, fs: seq<Event>)
    requires Valid(h)
    ensures Run(h, es + fs) == Run(Run(h, es), fs)
    decreases |es|
  {
    if es == [] {
      assert es + fs == fs;
    } else {
      assert (es + fs)[1..] == es[1..] + fs;
      RunAppend(Apply(h, es[0]), es[1..], fs);
    }
  }

  /** A received packet whose queuing delay is at or above the target. */
  predicate OverTarget(e: Event) {
    e.Received? && OffTarget(e.packet.timestampDifference - e.minDelay) <= 0
  }

  /** Acknowledgements arriving with the queuing delay at or above the target
      never grow the window, as long as the bytes in flight fit in an int to
      begin with (acknowledgements only ever lower them). */
  lemma {:induction false} OverTargetNeverGrows(h: Handler, es: seq<Event>)
    requires Valid(h) && TotalSize(h.inFlight) <= MaxInt
    requires forall i :: 0 <= i < |es| ==> OverTarget(es[i])
    ensures Run(h, es).maxWindow <= h.maxWindow
    ensures TotalSize(Run(h, es).inFlight) <= TotalSize(h.inFlight)
    decreases |es|
  {
    if es != [] {
      var h' := Apply(h, es[0]);
      assert h'.maxWindow <= h.maxWindow;
      OverTargetNeverGrows(h', es[1..]);
    }
  }

  /** Two packets are sent (say of 100 and 200 bytes); acknowledging the first
      leaves exactly the second in flight, so its size (200) is the bytes in
      flight. */
  lemma AckLeavesOtherPacketInFlight(first: Packet, second: Packet, ack: Packet, minDelay: int)
    requires first.seqNr != second.seqNr && ack.ackNr == first.seqNr
    requires second.size <= MaxInt
    ensures
      var h := Run(NewHandler(), [Sent(first), Sent(second), Received(ack, minDelay)]);
      BytesInFlight(h) == second.size && h.inFlight == map[second.seqNr := second]
  {
    var h0 := NewHandler();
    var h1 := OnSentPacket(h0, first);
    var h2 := OnSentPacket(h1, second);
    var h3 := OnReceivedPacket(h2, ack, minDelay);
    assert h3.inFlight == map[second.seqNr := second];
    assert TotalSize(h3.inFlight) == second.size;
    var es := [Sent(first), Sent(second), Received(ack, minDelay)];
    assert es[1..] == [Sent(second), Received(ack, minDelay)];
    assert es[1..][1..] == [Received(ack, minDelay)];
    var last := [Received(ack, minDelay)];
    assert Apply(h2, Received(ack, minDelay)) == h3;
    assert Run(h3, last[1..]) == h3;
    assert Run(h2, last) == h3;
    assert Run(h1, es[1..]) == h3;
    assert Run(h0, es) == h3;
  }

  /** The same run with the concrete sizes 100 and 200. */
  lemma SendTwoAckFirstExample()
    ensures
      var h := Run(NewHandler(), [Sent(Packet(1, 0, 0, 100)), Sent(Packet(2, 0, 0, 200)), Received(Packet(9, 1, 0, 20), 0)]);
      BytesInFlight(h) == 200
  {
    AckLeavesOtherPacketInFlight(Packet(1, 0, 0, 100), Packet(2, 0, 0, 200), Packet(9, 1, 0, 20), 0);
  }
}

=== FILE: window_handler.dfy ===
/**
 The uTP congestion-window controller of one socket: a delay-based window in
 the style of the LEDBAT rule (section 2.4.2 of RFC 6817) as used by uTP
 (BEP 29), together with its registry of packets in flight.

 `SocketWindowHandler` computes the gain with doubles; here it is exact integer
 arithmetic on microseconds, truncated toward zero like Java's cast to int.
 */
module WindowHandler {
  import opened JavaInt
  import opened InFlight

  /** CCONTROL_TARGET, 100 ms, in microseconds. */
  const CControlTarget: int := 100_000

  const MaxWindowChangePerPacket: int := 50

  const InitialMaxWindow: int := 150

  /** How far the queuing delay `ourDelay` (microseconds) is below the target;
      negative when it is above. */
  function OffTarget(ourDelay: int): (off: int)
    ensures off >= 0 <==> ourDelay <= CControlTarget
    ensures ourDelay >= 0 ==> off <= CControlTarget
  {
    CControlTarget - ourDelay
  }

  /** The per-packet gain: MAX_WINDOW_CHANGE_PER_PACKET times the delay factor
      `offTarget / target` times the window factor `bytesInFlight / maxWindow`
      (zero when the window is zero), rounded toward zero and narrowed to int. */
  function ScaledGain(maxWindow: int, bytesInFlight: int, ourDelay: int): (g: int)
    requires maxWindow >= 0
    ensures IsInt(g)
    ensures maxWindow == 0 ==> g == 0
    ensures bytesInFlight >= 0 && OffTarget(ourDelay) >= 0 ==> g >= 0
    ensures bytesInFlight >= 0 && OffTarget(ourDelay) <= 0 ==> g <= 0
  {
    if maxWindow == 0 then 0
    else
      var num := MaxWindowChangePerPacket * OffTarget(ourDelay) * bytesInFlight;
      assert bytesInFlight >= 0 && OffTarget(ourDelay) >= 0 ==> num >= 0 by {
        if bytesInFlight >= 0 && OffTarget(ourDelay) >= 0 {
          NonNegativeProduct(MaxWindowChangePerPacket * OffTarget(ourDelay), bytesInFlight);
        }
      }
      assert bytesInFlight >= 0 && OffTarget(ourDelay) <= 0 ==> num <= 0 by {
        if bytesInFlight >= 0 && OffTarget(ourDelay) <= 0 {
          NonNegativeProduct(-MaxWindowChangePerPacket * OffTarget(ourDelay), bytesInFlight);
        }
      }
      Saturate(TruncDiv(num, CControlTarget * maxWindow))
  }

  lemma NonNegativeProduct(a: int, b: int)
    requires a >= 0 && b >= 0
    ensures a * b >= 0
  {
  }

  /** The adjustment is in bytes and in proportion to the bytes in flight:
      with non-negative bytes in flight and the measured delay not below the
      tracked minimum, one packet grows the window by at most
      MAX_WINDOW_CHANGE_PER_PACKET times `bytesInFlight / maxWindow`, so by at
      most that constant while the bytes in flight do not exceed the window. */
  lemma {:induction false} GainBoundedByMaxChange(maxWindow: int, bytesInFlight: int, ourDelay: int)
    requires maxWindow > 0 && bytesInFlight >= 0 && ourDelay >= 0
    ensures ScaledGain(maxWindow, bytesInFlight, ourDelay) * maxWindow
            <= MaxWindowChangePerPacket * bytesInFlight
    ensures bytesInFlight <= maxWindow ==> ScaledGain(maxWindow, bytesInFlight, ourDelay) <= MaxWindowChangePerPacket
  {
    var off := OffTarget(ourDelay);
    var num := MaxWindowChangePerPacket * off * bytesInFlight;
    var den := CControlTarget * maxWindow;
    var g := ScaledGain(maxWindow, bytesInFlight, ourDelay);
    if off > 0 {
      var q := TruncDiv(num, den);
      assert num >= 0 by { NonNegativeProduct(MaxWindowChangePerPacket * off, bytesInFlight); }
      assert q * den <= num;
      assert num <= MaxWindowChangePerPacket * CControlTarget * bytesInFlight by {
        MonotoneProduct(off, CControlTarget, MaxWindowChangePerPacket * bytesInFlight);
        assert num == off * (MaxWindowChangePerPacket * bytesInFlight);
      }
      assert q * maxWindow * CControlTarget <= MaxWindowChangePerPacket * bytesInFlight * CControlTarget;
      assert q * maxWindow <= MaxWindowChangePerPacket * bytesInFlight;
      assert g <= q;
      assert g * maxWindow <= q * maxWindow by { MonotoneProduct(g, q, maxWindow); }
    } else {
      assert g <= 0;
      assert g * maxWindow <= 0 by { NonNegativeProduct(-g, maxWindow); }
      NonNegativeProduct(MaxWindowChangePerPacket, bytesInFlight);
    }
    if bytesInFlight <= maxWindow {
      MonotoneProduct(bytesInFlight, maxWindow, MaxWindowChangePerPacket);
      if g > MaxWindowChangePerPacket {
        MonotoneProductStrict(MaxWindowChangePerPacket, g, maxWindow);
      }
    }
  }

  lemma MonotoneProduct(a: int, b: int, c: int)
    requires a <= b && c >= 0
    ensures a * c <= b * c
  {
  }

  lemma MonotoneProductStrict(a: int, b: int, c: int)
    requires a < b && c > 0
    ensures a * c < b * c
  {
  }

  /** The new window adds the gain with Java's wrap-around. A positive gain
      fits when this sum stays within the int range. */
  predicate GainFits(maxWindow: int, bytesInFlight: int, ourDelay: int)
    requires maxWindow >= 0
  {
    maxWindow + ScaledGain(maxWindow, bytesInFlight, ourDelay) <= MaxInt
  }

  /** One control step: the window after a packet whose measured one-way
      delay is `measuredDelay`, with `minDelay` the smallest recent delay.
      The window stays a non-negative int whatever the delays are; a zero
      window stays zero. With non-negative bytes in flight, a queuing delay at
      or below the target never shrinks the window (unless the addition
      overflows), and one at or above the target never grows it; a negative
      (wrapped) byte count flips the sign of the gain. */
  function NextMaxWindow(maxWindow: int, bytesInFlight: int, measuredDelay: int, minDelay: int): (w: int)
    requires 0 <= maxWindow <= MaxInt
    ensures 0 <= w <= MaxInt
    ensures maxWindow == 0 ==> w == 0
    ensures bytesInFlight >= 0 && OffTarget(measuredDelay - minDelay) <= 0 ==> w <= maxWindow
    ensures (bytesInFlight >= 0 && OffTarget(measuredDelay - minDelay) >= 0
             && GainFits(maxWindow, bytesInFlight, measuredDelay - minDelay)) ==> w >= maxWindow
  {
    var gain := ScaledGain(maxWindow, bytesInFlight, measuredDelay - minDelay);
    Max(0, Wrap(maxWindow + gain))
  }

  /** While the bytes in flight are non-negative and do not exceed the window,
      the window has room for the largest gain, and the measured delay lies
      between the tracked minimum and the minimum plus the target, one step grows
      the window by between 0 and MAX_WINDOW_CHANGE_PER_PACKET bytes. */
  lemma {:induction false} UnderTargetGrowthIsBounded(maxWindow: int, bytesInFlight: int, measuredDelay: int, minDelay: int)
    requires 0 <= bytesInFlight <= maxWindow <= MaxInt - MaxWindowChangePerPacket
    requires minDelay <= measuredDelay <= minDelay + CControlTarget
    ensures maxWindow <= NextMaxWindow(maxWindow, bytesInFlight, measuredDelay, minDelay)
                      <= maxWindow + MaxWindowChangePerPacket
  {
    if maxWindow > 0 {
      GainBoundedByMaxChange(maxWindow, bytesInFlight, measuredDelay - minDelay);
    }
  }

  /** The addition of the gain is Java int addition: a window close to the top
      of the int range that should grow wraps to a negative sum instead, and
      `Math.max(0, ...)` turns that into an empty window. */
  lemma OverflowCollapsesWindow()
    ensures NextMaxWindow(MaxInt - 10, MaxInt - 10, 0, 0) == 0
  {
    var mw := MaxInt - 10;
    assert MaxWindowChangePerPacket * OffTarget(0) * mw == 50 * (CControlTarget * mw);
    assert TruncDiv(50 * (CControlTarget * mw), CControlTarget * mw) == 50;
    assert ScaledGain(mw, mw, 0) == 50;
  }

  /** MAX_WINDOW_CHANGE_PER_PACKET caps growth only: the delay factor has no
      lower bound, so a decrease scales with how far the delay is over the
      target. One packet at 1.1 s of queuing delay, with a full window of 1000
      bytes in flight, halves the window, ten times the constant. */
  lemma OverTargetDecreaseIsNotCapped()
    ensures NextMaxWindow(1000, 1000, 1_100_000, 0) == 500
    ensures 1000 - NextMaxWindow(1000, 1000, 1_100_000, 0) == 10 * MaxWindowChangePerPacket
  {
    assert MaxWindowChangePerPacket * OffTarget(1_100_000) * 1000 == -50_000_000_000;
    assert TruncDiv(-50_000_000_000, CControlTarget * 1000) == -500;
    assert ScaledGain(1000, 1000, 1_100_000) == -500;
  }

  /** The controller's state: the window in bytes and the packets in flight. */
  datatype Handler = Handler(maxWindow: int, inFlight: Registry)

  predicate Valid(h: Handler) {
    0 <= h.maxWindow <= MaxInt && WellKeyed(h.inFlight)
  }

  /** `getBytesInFlight`: the sizes of the tracked packets summed with Java's
      int addition, so the true total whenever that fits in an int. */
  function BytesInFlight(h: Handler): (b: int)
    ensures IsInt(b)
    ensures (TotalSize(h.inFlight) - b) % Modulus == 0
    ensures TotalSize(h.inFlight) <= MaxInt ==> b == SizeOfValues(h.inFlight)
    ensures TotalSize(h.inFlight) <= MaxInt ==> b >= 0
  {
    TotalSizeIsSizeOfValues(h.inFlight);
    Wrap(TotalSize(h.inFlight))
  }

  /** A fresh handler: window of 150 bytes, nothing in flight. */
  function NewHandler(): (h: Handler)
    ensures Valid(h)
    ensures h.maxWindow == InitialMaxWindow
    ensures h.inFlight == map[]
    ensures TotalSize(h.inFlight) == 0
    ensures BytesInFlight(h) == 0
  {
    SumFromEmpty(0);
    Handler(InitialMaxWindow, map[])
  }

  /** `onReceivedPacket`: one control step on the window, then the entry keyed
      by the packet's acknowledge number (and no other) leaves the registry.
      `minDelay` is the minimum the delay tracker reports once the packet's
      delay was added. With non-negative bytes in flight, a queuing delay at or
      above the target never grows the window; one within the target never
      shrinks it unless the addition of the gain overflows, and, with no more
      bytes in flight than the window and room below the int maximum, grows it
      by at most MAX_WINDOW_CHANGE_PER_PACKET bytes. */
  function OnReceivedPacket(h: Handler, p: Packet, minDelay: int): (r: Handler)
    requires Valid(h)
    ensures Valid(r)
    ensures forall s :: s in r.inFlight <==> s in h.inFlight && s != p.ackNr
    ensures forall s :: s in r.inFlight ==> r.inFlight[s] == h.inFlight[s]
    ensures TotalSize(r.inFlight)
            == TotalSize(h.inFlight) - (if p.ackNr in h.inFlight then h.inFlight[p.ackNr].size else 0)
    ensures h.maxWindow == 0 ==> r.maxWindow == 0
    ensures BytesInFlight(h) >= 0 && OffTarget(p.timestampDifference - minDelay) <= 0
            ==> r.maxWindow <= h.maxWindow
    ensures (BytesInFlight(h) >= 0 && OffTarget(p.timestampDifference - minDelay) >= 0
             && GainFits(h.maxWindow, BytesInFlight(h), p.timestampDifference - minDelay))
            ==> r.maxWindow >= h.maxWindow
    ensures (0 <= BytesInFlight(h) <= h.maxWindow <= MaxInt - MaxWindowChangePerPacket
             && minDelay <= p.timestampDifference <= minDelay + CControlTarget)
            ==> h.maxWindow <= r.maxWindow <= h.maxWindow + MaxWindowChangePerPacket
  {
    var w := NextMaxWindow(h.maxWindow, BytesInFlight(h), p.timestampDifference, minDelay);
    assert (0 <= BytesInFlight(h) <= h.maxWindow <= MaxInt - MaxWindowChangePerPacket
            && minDelay <= p.timestampDifference <= minDelay + CControlTarget)
           ==> h.maxWindow <= w <= h.maxWindow + MaxWindowChangePerPacket by {
      if 0 <= BytesInFlight(h) <= h.maxWindow <= MaxInt - MaxWindowChangePerPacket
         && minDelay <= p.timestampDifference <= minDelay + CControlTarget {
        UnderTargetGrowthIsBounded(h.maxWindow, BytesInFlight(h), p.timestampDifference, minDelay);
      }
    }
    Handler(w, Remove(h.inFlight, p.ackNr))
  }

  /** The control step sees the bytes in flight before the acknowledged packet
      is removed, not after: a window of 100 bytes with one 100-byte packet in
      flight, acknowledged at zero queuing delay, grows to 150. Counting the
      bytes after the removal (none) would have left it at 100. */
  lemma ReceivedStepUsesBytesBeforeRemoval(s: SeqNr, pk: Packet, ack: Packet)
    requires pk.seqNr == s && pk.size == 100
    requires ack.ackNr == s && ack.timestampDifference == 0
    ensures OnReceivedPacket(Handler(100, map[s := pk]), ack, 0).maxWindow == 150
    ensures OnReceivedPacket(Handler(100, map[s := pk]), ack, 0).inFlight == map[]
    ensures NextMaxWindow(100, 0, 0, 0) == 100
  {
    SumFromEmpty(0);
    SumFromInsert(map[], s, pk, 0);
    assert map[][s := pk] == map[s := pk];
    assert ScaledGain(100, 100, 0) == 50;
  }

  /** `onSentPacket`: track the packet unless its sequence number is already
      tracked; the window is not touched. */
  function OnSentPacket(h: Handler, p: Packet): (r: Handler)
    requires Valid(h)
    ensures Valid(r)
    ensures r.maxWindow == h.maxWindow
    ensures p.seqNr in h.inFlight ==> r.inFlight == h.inFlight
    ensures p.seqNr !in h.inFlight ==> r.inFlight == h.inFlight[p.seqNr := p]
    ensures TotalSize(r.inFlight) == TotalSize(h.inFlight) + (if p.seqNr in h.inFlight then 0 else p.size)
  {
    Handler(h.maxWindow, PutIfAbsent(h.inFlight, p))
  }

  /** `onTimeout`: back off to the initial window, whatever it was. */
  function OnTimeout(h: Handler): (r: Handler)
    requires Valid(h)
    ensures Valid(r)
    ensures r.maxWindow == InitialMaxWindow
    ensures r.inFlight == h.inFlight
  {
    h.(maxWindow := InitialMaxWindow)
  }

  /** `onPacketLoss`: halve the window, rounding down. */
  function OnPacketLoss(h: Handler): (r: Handler)
    requires Valid(h)
    ensures Valid(r)
    ensures 2 * r.maxWindow <= h.maxWindow <= 2 * r.maxWindow + 1
    ensures r.inFlight == h.inFlight
  {
    h.(maxWindow := h.maxWindow / 2)
  }
}
